=== FILE: README.md ===
# Moderation engine of the Zloy_Misha Telegram bot, in Dafny

The bot watches chosen Telegram groups and topics. It deletes messages that
contain a forbidden phrase. For a warning phrase it counts a warning
against the sender, and at the third warning it blacklists the sender, whose
later messages are all deleted. Administrators can query a user's count, list
the blacklist and unban a user. Two HTTP routes report aggregates of the
state.

This project models that decision engine, which lives in `bot.js`, as pure
functions over an immutable state:

- `Text`: `toLowerCase`, `String.prototype.includes`, and `Array.prototype.some` over a phrase table.
- `Phrases`: the two phrase tables, `containsForbiddenPhrase` and `containsWarningPhrase`, and facts about the tables.
- `Decimal`: `Number.prototype.toString` on integer ids. Configured group and topic ids are strings, so the filters compare strings.
- `ModerationState`: the `userWarnings` map and the `blackList` set, `getUserWarnings`, `addWarning`, `addToBlackList`, `isInBlackList`, the reset done by `/unban`, and the invariant.
- `Engine`: the `'message'` handler as `Step(state, config, message, lookup) -> (decision, next state)`, and the Telegram calls each decision issues (`Effects`).
- `Commands`: `/warnings`, `/blacklist` and `/unban`.
- `Stats`: the `/health` and `/stats` aggregates.
- `Scenarios`: the three-strike sequence, a reset followed by new warnings, and the invariant over any stream of messages and `/unban` commands.

The handler's checks run in this order. The first one that applies decides.

1. The chat id (as a string) is not among the monitored groups: ignore.
2. Topics are configured, the thread id is truthy (present and not 0), and it is not listed: ignore.
3. The member lookup says `administrator` or `creator`: ignore. A failed lookup counts as an ordinary member.
4. The sender is blacklisted: delete the message.
5. The lower-cased text contains a forbidden phrase: delete the message, and message the sender privately if the delete worked.
6. It contains a warning phrase: the count goes up by one. At 3 or more the sender is blacklisted, the message is deleted and a notice is posted. Below 3, only a warning reply is posted and the message stays.

Three details of `bot.js` that the model keeps:

- Warnings 1 and 2 do not delete the message; only the reply is sent (bot.js:190-200).
- The administrator lookup runs after the group and topic filters (bot.js:109-129). Swapping them would not change any decision.
- A thread id of 0 skips the topic filter just like a missing one, because 0 is falsy (bot.js:114).

The invariant kept by every step is `ModerationState.Valid`:

- every stored count is 1, 2 or 3;
- the blacklist has no duplicates;
- a user is blacklisted exactly when their count is 3.

## Model

| member | source | states |
|---|---|---|
| Text.LowerChar | bot.js:67 | a lower-cased character is never upper-case; characters that are not capitals are unchanged; a capital becomes the small letter whose upper-case form (written independently) is that capital |
| Text.LowerInvertsUpper | bot.js:67 | every small letter of the modelled ranges is the lower-casing of its own capital, so capitals and small letters pair up one to one |
| Text.Lower | bot.js:67 | lower-casing keeps the length, leaves no capital letter, and leaves every non-capital character in place |
| Text.LowerIdempotent | bot.js:73 | lower-casing already lower-cased text changes nothing |
| Text.LowerConcat | bot.js:73 | lower-casing a concatenation is concatenating the lower-cased parts |
| Text.Contains | bot.js:68 | `includes` is true exactly when the phrase occurs at some position of the text (the empty phrase occurs everywhere) |
| Text.MatchesAny | bot.js:74 | `some` over a table is true exactly when some entry of the table occurs in the text |
| Text.SubstringTransitive | bot.js:24-43 | a phrase inside a phrase inside a text is inside the text |
| Text.TableReduction | bot.js:24-43 | a table can be shrunk to the entries that every dropped entry contains, without changing any verdict |
| Text.UpperNeverMatches | bot.js:72-74 | a phrase with a capital letter never occurs in lower-cased text |
| Text.LowerFindsVariant | bot.js:67-68 | any casing of a phrase, embedded anywhere, is found once the text is lower-cased |
| Phrases.ContainsForbiddenPhrase | bot.js:66-69 | true exactly when some forbidden phrase occurs in the lower-cased text |
| Phrases.ContainsWarningPhrase | bot.js:72-75 | true exactly when some warning phrase occurs in the lower-cased text |
| Phrases.ForbiddenIgnoresCase | bot.js:66-69 | every casing of a forbidden phrase, with any text around it, is forbidden |
| Phrases.WarningIgnoresCase | bot.js:72-75 | every casing of a warning phrase, with any text around it, is warnable |
| Phrases.CapitalisedEntriesNeverMatch | bot.js:57-62 | the entries "Личка", "Файл", "Бот дурак" and "Бот Дурак" can never match any text |
| Phrases.WarningTableWithoutCapitals | bot.js:46-63 | the warning table with its four capitalised entries removed gives the same verdict on every text |
| Phrases.ForbiddenCoverIsCorrect | bot.js:24-43 | each of the eighteen forbidden phrases contains one of seven core phrases, at the stated position |
| Phrases.ForbiddenTableReducesToCore | bot.js:24-43 | the seven core forbidden phrases give the same verdict as the whole table on every text |
| Phrases.WithoutLNeverForbidden | bot.js:24-43 | every forbidden phrase contains "л", so text without it is never deleted as forbidden |
| Phrases.WarnableByEntry | bot.js:72-75 | lower-case text that starts with a warning phrase is warnable |
| Decimal.NatToDecimal | bot.js:109 | the rendering is a non-empty digit string with no leading zero |
| Decimal.IntToDecimal | bot.js:115 | the rendering starts with a minus sign exactly for negative ids, is otherwise all digits, and never has a leading zero (after the sign) except for 0 itself, so it is the one canonical string for the id |
| Decimal.NatToDecimalRoundTrip | bot.js:109 | reading back the digits of a rendered natural number gives the number |
| Decimal.IntToDecimalRoundTrip | bot.js:109 | parsing the rendering of any integer id gives the id back |
| Decimal.IntToDecimalInjective | bot.js:109-115 | two ids render to the same string exactly when they are equal |
| Decimal.RenderedMembership | bot.js:13-14 | an id's rendering is in a list of rendered ids exactly when the id is in the list |
| ModerationState.GetUserWarnings | bot.js:78-80 | a stored user's count is the stored value; an unknown user counts 0 |
| ModerationState.IsInBlackList | bot.js:96-98 | true exactly when the id is a member of the blacklist set |
| ModerationState.AddWarning | bot.js:83-88 | the returned count is the old count plus one (1 for an unknown user) and is stored; every other count and the blacklist are unchanged |
| ModerationState.AddToBlackList | bot.js:91-93 | the user becomes a member, no other membership changes, earlier entries keep their order, no duplicate appears, counts are untouched |
| ModerationState.Remove | bot.js:261 | deleting from the blacklist removes exactly that id, keeps the rest in their insertion order, and does nothing when the id is absent |
| ModerationState.Reset | bot.js:261-262 | after the reset the user has count 0, no map entry and no blacklist entry; every other user is unaffected |
| ModerationState.ResetIdempotent | bot.js:261-262 | resetting a user twice is the same as resetting once |
| ModerationState.InitialValid | bot.js:20-21 | the empty start state satisfies the invariant |
| ModerationState.BlacklistedIffThree | bot.js:171-173 | under the invariant a user is blacklisted exactly when their count is 3, and no count exceeds 3 |
| ModerationState.ResetPreservesValid | bot.js:261-262 | a reset keeps the invariant |
| ModerationState.DistinctCount | bot.js:239-241 | a blacklist without duplicates lists each member exactly once |
| ModerationState.BlacklistNoLargerThanWarnings | bot.js:289-290 | under the invariant the blacklist is never larger than the warning map |
| Engine.MessageText | bot.js:106 | non-empty text wins; otherwise the caption; the result is empty exactly when both are missing or empty, and a non-empty result is one of the two |
| Engine.DisplayName | bot.js:169 | a non-empty username is shown as `@` followed by it; otherwise the first name |
| Engine.GroupMonitored | bot.js:108-111 | no configured group monitors nothing; a monitored chat has a configured group string that reads back as the chat id |
| Engine.TopicPasses | bot.js:113-118 | with no topics configured, or a missing or 0 thread id, every message passes; otherwise a thread id whose rendering is listed passes, and a passing thread id is one a configured topic string reads back as |
| Engine.IsPrivileged | bot.js:120-129 | privileged exactly for the statuses `administrator` and `creator`; a failed lookup is never privileged |
| Engine.OrdinalOf | bot.js:194 | counts 1, 2 and 3 get the word for that position; any other count gets the third word |
| Engine.Step | bot.js:101-205 | a message without a sender is ignored; only in-scope messages from non-privileged senders draw a decision; only warnings change state, and only the sender's; a warning raises the count by one and stays below 3 with the blacklist unchanged; blacklisting follows a count of 3 or more |
| Engine.Effects | bot.js:132-200 | exactly the blacklisted, forbidden and blacklisting decisions delete the message; a reply is posted exactly for a warning or a blacklisting; the private notice is sent exactly when a forbidden-phrase message was deleted; a warning is the single reply carrying its count, the ordinal word for that count and the sender's display name; a blacklisting posts the blacklist notice with that name and no other reply; the private message is always the forbidden-phrase notice; a message is deleted once, as the first call; a blacklisted sender draws exactly that one call, a forbidden phrase the delete plus at most the one private notice, a blacklisting the delete plus the one reply; every call targets this chat, message and sender |
| Engine.UnmonitoredGroupIgnored | bot.js:109-111 | a chat outside the monitored groups is ignored with no state change |
| Engine.UnlistedTopicIgnored | bot.js:114-118 | with topics configured, a truthy unlisted thread id is ignored with no state change |
| Engine.NoThreadSkipsTopicFilter | bot.js:114 | a message without a thread id, or with thread id 0, is handled as if no topics were configured |
| Engine.ListedTopicModerated | bot.js:114-118 | a message in a listed topic is handled as if no topics were configured |
| Engine.GroupFilterByIds | bot.js:109 | when the configured strings render ids, the group filter is membership of the chat id |
| Engine.PrivilegedIgnored | bot.js:121-125 | administrators and creators are ignored with no state change, whatever the text or blacklist |
| Engine.FailedLookupIsNotPrivileged | bot.js:126-129 | a failed member lookup gives the same result as any non-privileged status |
| Engine.BlacklistedSenderDeleted | bot.js:132-141 | a blacklisted sender's message is deleted whatever its text, and nothing changes |
| Engine.ForbiddenBeforeWarning | bot.js:144-162 | a forbidden phrase deletes the message with no state change, even when a warning phrase is also present |
| Engine.WarningPhraseCounts | bot.js:165-200 | a warning phrase stores count+1; below 3 the decision is a warning with that count and the blacklist is unchanged; at 3 or more the sender is blacklisted |
| Engine.CleanTextIgnored | bot.js:165 | text with neither kind of phrase, from a sender not blacklisted, is ignored with no state change |
| Engine.EmptyTextFallsBackToCaption | bot.js:106 | an empty text is treated like a missing one, so the caption is scanned |
| Engine.StepPreservesValid | bot.js:165-173 | every run of the handler keeps the invariant |
| Engine.WarningIsFirstOrSecond | bot.js:190-195 | in a valid state a warning reply counts 1 or 2, so the "third" wording is never used |
| Commands.WarningsCommand | bot.js:208-224 | only an administrator gets a reply; for a stored id the reply is its stored count; the count is 0 exactly for unknown ids and for an unreadable argument; under the invariant it is at most 3, and it is 3 exactly when the id is blacklisted |
| Commands.BlacklistCommand | bot.js:226-245 | only an administrator gets a reply; "empty" means nobody is blacklisted; a listing holds the blacklist ids in the order they were added, its count is its length, and under the invariant no id appears twice |
| Commands.UnbanCommand | bot.js:247-265 | only an administrator changes anything or gets a reply; an unreadable argument changes nothing; the named user ends with count 0 and off the blacklist; others are unaffected; the invariant is kept |
| Commands.UnbanIdempotent | bot.js:261-262 | running the same unban twice is the same as running it once |
| Stats.SumRemove | bot.js:296 | the total of the counts is any one user's count plus the total of the others |
| Stats.TotalWarnings | bot.js:296 | the reduction over the map's values computes the total of all counts |
| Stats.SumBounds | bot.js:296-297 | with counts in 1..3, the total lies between the number of users and three times that |
| Stats.SumAddWarning | bot.js:83-88 | adding a warning raises the total by exactly one |
| Stats.StepTotal | bot.js:165-173 | the total rises by one on a warning or a blacklisting and is unchanged by every other decision |
| Stats.ResetTotal | bot.js:261-262 | an unban lowers the total by the user's count, so "total warnings issued" is the sum of current counts |
| Stats.Health | bot.js:285-292 | the reported sizes are the map size and the blacklist size, which is the size of the set of blacklisted ids; a zero warning count means an empty map; under the invariant the blacklist count never exceeds the warning count |
| Stats.GetStats | bot.js:294-302 | the report holds the total, the user, blacklist, group and topic counts; under the invariant the total lies between the users and three times that, and blacklisted users never outnumber warned ones |
| Scenarios.ThreeStrikes | bot.js:165-201 | three warnable messages from a user without warnings give warning 1, warning 2, then the blacklist with count 3; a fourth message is deleted; other users are unaffected |
| Scenarios.UnbanStartsAfresh | bot.js:247-265 | after an unban the user reports 0 warnings, is not listed, and the next warnable message is a first warning |
| Scenarios.OffendingTextIsWarnable | bot.js:46-75 | "го машинку" contains a warning phrase and no forbidden phrase |
| Scenarios.OffendingIsLowerCase | bot.js:51 | "го машинку" is already lower case and begins with the table entry "го машинку" |
| Scenarios.ExampleRun | bot.js:101-205 | in one monitored group, a user repeating a warnable text is warned twice and then blacklisted with 3 warnings, and their fourth message is deleted |
| Scenarios.Apply | bot.js:101-265 | one message or unban leaves every user it does not concern with the same count and blacklist membership, and keeps the invariant |
| Scenarios.Run | bot.js:101-265 | over a stream of events, a user no event concerns ends with the same count and blacklist membership |
| Scenarios.RunPreservesValid | bot.js:101-265 | any stream of messages and unban commands keeps the invariant |
| Scenarios.CountNeverExceedsThree | bot.js:165-173 | from process start, no user's count ever exceeds 3 |

## Left out

- Telegram calls (`getChatMember`, `deleteMessage`, `sendMessage`) are not made. Their outcomes are parameters instead: the member lookup is `None` or the status string, and whether the delete succeeded is a boolean given to `Effects`. The state is updated whatever the calls do.
- `async` interleaving is not modelled. Each message and each command is one atomic step. A message that triggers both the `'message'` handler and a command handler is modelled as two separate events, each with its own lookup.
- Command dispatch is not modelled. The regular expressions that pick `/warnings`, `/blacklist` and `/unban` out of the text belong to the client library. `parseInt` of the argument is replaced by an already-parsed `Option<int>`, where `None` stands for NaN.
- Only part of `toLowerCase` is modelled: ASCII A-Z and the Cyrillic capitals U+0400-U+042F. Every other character is left unchanged, and no character changes length. Every letter in the phrase tables is a basic Cyrillic letter (U+0410-U+044F), and no character outside the modelled ranges that `toLowerCase` changes becomes a basic Cyrillic letter or a space, so the partial lower-casing cannot change a verdict.
- `toString` of ids that are not integers, or whose size is 1e21 or more, is left out. JavaScript prints those in exponent form, and Telegram ids are integers below 2^53.
- Environment parsing (`split(',')`, the token, the port), server startup, signal handlers, console logging and the `error`/`polling_error` handlers are left out.
- The constant and time-dependent fields of the HTTP routes (`status`, `bot_running`, `timestamp`, `uptime`) are left out.
- The exact Russian wording of the replies is left out. Only the name, the ordinal word and the `n/3` count of a warning reply are kept.
- The outer `try`/`catch` of the handler only logs. A reply that fails after the state was updated leaves the state updated, and the model's next state already includes that update.

=== FILE: commands.dfy ===
/** The state side of the administrator commands /warnings, /blacklist and
    /unban. Each handler first looks up the caller; unlike the message
    handler, a failed lookup here means "not an administrator" and the
    command does nothing. */
module Commands {
  import opened Wrappers
  import opened ModerationState
  import opened Engine

  /** /warnings <id>: the count to report, or None when the caller is not an
      administrator (no reply). An argument `parseInt` cannot read is NaN,
      which no map key equals, so it reports 0. */
  function WarningsCommand(s: State, lookup: Option<string>, arg: Option<int>): (r: Option<nat>)
    ensures r.Some? <==> IsPrivileged(lookup)
    ensures Valid(s) && r.Some? ==> r.value <= Threshold
    ensures r.Some? && arg.Some? ==> (r.value == 0 <==> arg.value !in s.warnings || s.warnings[arg.value] == 0)
    ensures r.Some? && arg.None? ==> r.value == 0
    ensures r.Some? && arg.Some? && arg.value in s.warnings ==> r.value == s.warnings[arg.value]
    ensures Valid(s) && r.Some? && arg.Some? ==> (r.value == Threshold <==> IsInBlackList(s, arg.value))
  {
    if !IsPrivileged(lookup) then None
    else match arg
      case None => Some(0)
      case Some(u) =>
        Some(GetUserWarnings(s, u))
  }

  /** The reply to /blacklist: "empty", or the number of entries and the ids
      in the order they were blacklisted. */
  datatype BlacklistReply = EmptyBlacklist | Listing(count: nat, ids: seq<int>)

  function BlacklistCommand(s: State, lookup: Option<string>): (r: Option<BlacklistReply>)
    ensures r.Some? <==> IsPrivileged(lookup)
    ensures r == Some(EmptyBlacklist) ==> forall u :: !IsInBlackList(s, u)
    ensures r.Some? && r.value.Listing? ==>
              && r.value.count == |r.value.ids| > 0
              && (forall u :: u in r.value.ids <==> IsInBlackList(s, u))
              && (Valid(s) ==> NoDuplicates(r.value.ids))
    ensures r.Some? && r.value.Listing? ==> r.value.ids == s.blacklist
  {
    if !IsPrivileged(lookup) then None
    else if |s.blacklist| > 0 then Some(Listing(|s.blacklist|, s.blacklist))
    else Some(EmptyBlacklist)
  }

  /** What /unban leaves behind: whether a confirmation was posted, and the
      new state. */
  datatype UnbanOutcome = UnbanOutcome(replied: bool, next: State)

  /** /unban <id>: for an administrator, the id loses its blacklist entry and
      its warnings, and a confirmation is posted even when the argument was
      not a number (deleting NaN removes nothing). */
  function UnbanCommand(s: State, lookup: Option<string>, arg: Option<int>): (r: UnbanOutcome)
    ensures r.replied <==> IsPrivileged(lookup)
    ensures !IsPrivileged(lookup) || arg.None? ==> r.next == s
    ensures IsPrivileged(lookup) && arg.Some? ==>
              && GetUserWarnings(r.next, arg.value) == 0
              && !IsInBlackList(r.next, arg.value)
    ensures forall v :: arg != Some(v) ==>
              GetUserWarnings(r.next, v) == GetUserWarnings(s, v)
              && (IsInBlackList(r.next, v) <==> IsInBlackList(s, v))
    ensures Valid(s) ==> Valid(r.next)
  {
    if !IsPrivileged(lookup) then UnbanOutcome(false, s)
    else match arg
      case None => UnbanOutcome(true, s)
      case Some(u) =>
        UnbanOutcome(true, Reset(s, u))
  }

  /** Unbanning twice in a row is the same as unbanning once. */
  lemma UnbanIdempotent(s: State, lookup: Option<string>, arg: Option<int>)
    ensures var once := UnbanCommand(s, lookup, arg).next;
            UnbanCommand(once, lookup, arg).next == once
  {
  }
}

=== FILE: decimal.dfy ===
/** `Number.prototype.toString()` on an integer identifier: the bot compares
    `chatId.toString()` and `message_thread_id.toString()` with the strings
    of its configuration. */
module Decimal {
  import opened Wrappers

  predicate IsDigit(c: char) {
    '0' <= c <= '9'
  }

  predicate AllDigits(s: string) {
    forall i :: 0 <= i < |s| ==> IsDigit(s[i])
  }

  function DigitChar(d: nat): (c: char)
    requires d < 10
    ensures IsDigit(c)
  {
    ('0' as int + d) as char
  }

  function DigitValue(c: char): (d: nat)
    requires IsDigit(c)
    ensures d < 10 && DigitChar(d) == c
  {
    c as int - '0' as int
  }

  /** Decimal digits of n, most significant first, without leading zeros. */
  function NatToDecimal(n: nat): (s: string)
    ensures |s| >= 1 && AllDigits(s)
    ensures s[0] == '0' ==> n == 0
    decreases n
  {
    if n < 10 then [DigitChar(n)] else NatToDecimal(n / 10) + [DigitChar(n % 10)]
  }

  /** `toString()` of an integer: a minus sign for negatives, then the digits,
      with no leading zero except for 0 itself. */
  function IntToDecimal(i: int): (s: string)
    ensures |s| >= 1
    ensures s[0] == '-' <==> i < 0
    ensures i >= 0 ==> AllDigits(s) && (s[0] == '0' ==> i == 0)
    ensures i < 0 ==> |s| >= 2 && AllDigits(s[1..]) && s[1] != '0'
  {
    if i < 0 then "-" + NatToDecimal(-i) else NatToDecimal(i)
  }

  /** The value of a string of decimal digits. */
  function DigitsValue(s: string): nat
    requires AllDigits(s)
  {
    if |s| == 0 then 0 else DigitsValue(s[..|s| - 1]) * 10 + DigitValue(s[|s| - 1])
  }

  /** Reads back what `IntToDecimal` writes: an optional minus sign and at
      least one digit; anything else is None. */
  function ParseDecimal(s: string): Option<int> {
    if |s| >= 2 && s[0] == '-' && AllDigits(s[1..]) then Some(0 - DigitsValue(s[1..]))
    else if |s| >= 1 && AllDigits(s) then Some(DigitsValue(s))
    else None
  }

  lemma {:induction false} NatToDecimalRoundTrip(n: nat)
    ensures DigitsValue(NatToDecimal(n)) == n
    decreases n
  {
    var s := NatToDecimal(n);
    if n >= 10 {
      NatToDecimalRoundTrip(n / 10);
      assert s[..|s| - 1] == NatToDecimal(n / 10);
      assert DigitValue(s[|s| - 1]) == n % 10;
    } else {
      assert s[..0] == [];
    }
  }

  /** Parsing the rendering of an integer gives the integer back. */
  lemma IntToDecimalRoundTrip(i: int)
    ensures ParseDecimal(IntToDecimal(i)) == Some(i)
  {
    var s := IntToDecimal(i);
    if i < 0 {
      assert s[1..] == NatToDecimal(-i);
      NatToDecimalRoundTrip(-i);
    } else {
      NatToDecimalRoundTrip(i);
    }
  }

  /** Distinct identifiers render as distinct strings, so comparing the
      strings is comparing the identifiers. */
  lemma IntToDecimalInjective(a: int, b: int)
    ensures IntToDecimal(a) == IntToDecimal(b) <==> a == b
  {
    if IntToDecimal(a) == IntToDecimal(b) {
      IntToDecimalRoundTrip(a);
      IntToDecimalRoundTrip(b);
    }
  }

  /** When a list of strings is the rendering of a list of identifiers, an
      identifier's rendering is in the first exactly when it is in the second. */
  lemma RenderedMembership(ids: seq<int>, rendered: seq<string>, i: int)
    requires |rendered| == |ids|
    requires forall k :: 0 <= k < |ids| ==> rendered[k] == IntToDecimal(ids[k])
    ensures IntToDecimal(i) in rendered <==> i in ids
  {
    if IntToDecimal(i) in rendered {
      var k :| 0 <= k < |rendered| && rendered[k] == IntToDecimal(i);
      IntToDecimalInjective(i, ids[k]);
    }
  }
}

=== FILE: engine.dfy ===
/** The decision logic of the bot's 'message' handler, as a pure step from
    (state, message) to (decision, next state). The Telegram calls it makes
    are described by the `Effects` of the decision. */
module Engine {
  import opened Wrappers
  import opened Text
  import opened Phrases
  import opened Decimal
  import opened ModerationState

  /** The sender (`msg.from`): id, optional @-handle and first name. */
  datatype User = User(id: int, username: Option<string>, firstName: string)

  /** The fields of an incoming Telegram message the handler reads. A missing
      or 0 `threadId` is falsy in JavaScript; `from` is absent for some
      service and channel messages. */
  datatype Message = Message(
    chatId: int,
    threadId: Option<int>,
    messageId: int,
    from: Option<User>,
    text: Option<string>,
    caption: Option<string>)

  /** MONITORED_GROUPS and MONITORED_TOPICS: the comma-split environment
      strings, compared as strings with the ids' decimal renderings. */
  datatype Config = Config(groups: seq<string>, topics: seq<string>)

  /** What the handler decides for one message. */
  datatype Decision =
    | Ignore
    | DeleteBlacklisted
    | DeleteForbidden
    | Warn(count: nat, name: string)
    | Blacklist(name: string)

  datatype Reaction = Reaction(decision: Decision, next: State)

  /** `msg.text || msg.caption || ''`: an empty string is falsy too. */
  function MessageText(msg: Message): (r: string)
    ensures msg.text.Some? && msg.text.value != "" ==> r == msg.text.value
    ensures r != "" ==> msg.text == Some(r) || msg.caption == Some(r)
    ensures r == "" <==> (msg.text.None? || msg.text.value == "") && (msg.caption.None? || msg.caption.value == "")
  {
    if msg.text.Some? && msg.text.value != "" then msg.text.value
    else if msg.caption.Some? && msg.caption.value != "" then msg.caption.value
    else ""
  }

  /** `@username` when the sender has a (non-empty) handle, else the first name. */
  function DisplayName(user: User): (r: string)
    ensures user.username.Some? && user.username.value != "" ==>
              |r| == |user.username.value| + 1 && r[0] == '@' && r[1..] == user.username.value
    ensures user.username.None? || user.username.value == "" ==> r == user.firstName
  {
    if user.username.Some? && user.username.value != "" then "@" + user.username.value
    else user.firstName
  }

  /** `MONITORED_GROUPS.includes(chatId.toString())`: a monitored chat has a
      configured string that reads back as its id. */
  function GroupMonitored(cfg: Config, chatId: int): (b: bool)
    ensures |cfg.groups| == 0 ==> !b
    ensures b ==> exists k :: 0 <= k < |cfg.groups| && ParseDecimal(cfg.groups[k]) == Some(chatId)
  {
    IntToDecimalRoundTrip(chatId);
    IntToDecimal(chatId) in cfg.groups
  }

  /** The topic filter applies only when topics are configured and the thread
      id is truthy (present and not 0). */
  function TopicPasses(cfg: Config, threadId: Option<int>): (b: bool)
    ensures |cfg.topics| == 0 ==> b
    ensures threadId.None? || threadId.value == 0 ==> b
    ensures b && |cfg.topics| > 0 && threadId.Some? && threadId.value != 0 ==>
              exists k :: 0 <= k < |cfg.topics| && ParseDecimal(cfg.topics[k]) == Some(threadId.value)
    ensures threadId.Some? && IntToDecimal(threadId.value) in cfg.topics ==> b
  {
    IntToDecimalRoundTrip(if threadId.Some? then threadId.value else 0);
    TopicFilter(cfg, threadId)
  }

  /** The topic test as `bot.js` writes it, on the rendered thread id. */
  predicate TopicFilter(cfg: Config, threadId: Option<int>) {
    !(|cfg.topics| > 0 && threadId.Some? && threadId.value != 0)
    || IntToDecimal(threadId.value) in cfg.topics
  }

  predicate InScope(cfg: Config, msg: Message) {
    GroupMonitored(cfg, msg.chatId) && TopicPasses(cfg, msg.threadId)
  }

  /** The member lookup: None when `getChatMember` failed, else the status. */
  function IsPrivileged(lookup: Option<string>): (b: bool)
    ensures lookup.None? ==> !b
    ensures b <==> lookup.Some? && lookup.value in {"administrator", "creator"}
  {
    lookup == Some("administrator") || lookup == Some("creator")
  }

  predicate SentBy(msg: Message, u: int) {
    msg.from.Some? && msg.from.value.id == u
  }

  /** One run of the 'message' handler. */
  function Step(s: State, cfg: Config, msg: Message, lookup: Option<string>): (r: Reaction)
    ensures msg.from.None? ==> r == Reaction(Ignore, s)
    ensures !r.decision.Ignore? ==> InScope(cfg, msg) && !IsPrivileged(lookup)
    ensures !(r.decision.Warn? || r.decision.Blacklist?) ==> r.next == s
    ensures forall v :: !SentBy(msg, v) ==>
              GetUserWarnings(r.next, v) == GetUserWarnings(s, v)
              && (IsInBlackList(r.next, v) <==> IsInBlackList(s, v))
    ensures r.decision.Warn? ==>
              && r.decision.count == GetUserWarnings(s, msg.from.value.id) + 1
              && r.decision.count == GetUserWarnings(r.next, msg.from.value.id)
              && r.decision.count < Threshold
              && r.next.blacklist == s.blacklist
    ensures r.decision.Blacklist? ==>
              && GetUserWarnings(r.next, msg.from.value.id) == GetUserWarnings(s, msg.from.value.id) + 1
              && GetUserWarnings(r.next, msg.from.value.id) >= Threshold
              && IsInBlackList(r.next, msg.from.value.id)
    ensures NoDuplicates(s.blacklist) ==> NoDuplicates(r.next.blacklist)
  {
    match msg.from
    case None => Reaction(Ignore, s)
    case Some(user) =>
      if !GroupMonitored(cfg, msg.chatId) then Reaction(Ignore, s)
      else if !TopicPasses(cfg, msg.threadId) then Reaction(Ignore, s)
      else if IsPrivileged(lookup) then Reaction(Ignore, s)
      else if IsInBlackList(s, user.id) then Reaction(DeleteBlacklisted, s)
      else
        var text := MessageText(msg);
        if ContainsForbiddenPhrase(text) then Reaction(DeleteForbidden, s)
        else if ContainsWarningPhrase(text) then
          var added := AddWarning(s, user.id);
          if added.count >= Threshold then
            Reaction(Blacklist(DisplayName(user)), AddToBlackList(added.next, user.id))
          else
            Reaction(Warn(added.count, DisplayName(user)), added.next)
        else Reaction(Ignore, s)
  }

  /** Which word the warning reply uses: 1 and 2 get their own, anything
      else gets "third". */
  datatype Ordinal = First | Second | Third

  /** The count an ordinal word names. */
  function Position(o: Ordinal): nat {
    match o
    case First => 1
    case Second => 2
    case Third => 3
  }

  function OrdinalOf(n: nat): (o: Ordinal)
    ensures 1 <= n <= 3 ==> Position(o) == n
    ensures n == 0 || n > 3 ==> o == Third
  {
    if n == 1 then First else if n == 2 then Second else Third
  }

  /** The texts the bot posts, up to their Russian wording. */
  datatype Notice =
    | WarningNotice(name: string, ordinal: Ordinal, count: nat)
    | BlacklistNotice(name: string)
    | ForbiddenNotice

  /** Telegram calls: delete a message, reply to it in the chat, or write to
      the sender privately. */
  datatype Effect =
    | DeleteMessage(chatId: int, messageId: int)
    | Reply(chatId: int, messageId: int, notice: Notice)
    | DirectMessage(userId: int, notice: Notice)

  predicate Deletes(effects: seq<Effect>) {
    exists k :: 0 <= k < |effects| && effects[k].DeleteMessage?
  }

  /** The calls the handler issues for a decision, in order. The private
      notice after a forbidden phrase is only attempted when the deletion
      succeeded; the blacklist reply is sent whatever the deletion did. */
  function Effects(msg: Message, d: Decision, deleted: bool): (r: seq<Effect>)
    requires d.Ignore? || msg.from.Some?
    ensures Deletes(r) <==> d.DeleteBlacklisted? || d.DeleteForbidden? || d.Blacklist?
    ensures d.Ignore? <==> r == []
    ensures forall k :: 0 <= k < |r| && r[k].DeleteMessage? ==>
              r[k] == DeleteMessage(msg.chatId, msg.messageId)
    ensures forall k :: 0 <= k < |r| && r[k].Reply? ==>
              r[k].chatId == msg.chatId && r[k].messageId == msg.messageId
              && (d.Warn? || d.Blacklist?)
    ensures forall k :: 0 <= k < |r| && r[k].DirectMessage? ==>
              r[k].userId == msg.from.value.id && d.DeleteForbidden? && deleted
    ensures (exists k :: 0 <= k < |r| && r[k].Reply?) <==> d.Warn? || d.Blacklist?
    ensures (exists k :: 0 <= k < |r| && r[k].DirectMessage?) <==> d.DeleteForbidden? && deleted
    ensures d.Warn? ==>
              && |r| == 1 && r[0].Reply? && r[0].notice.WarningNotice?
              && r[0].notice.count == d.count
              && r[0].notice.ordinal == OrdinalOf(d.count)
              && r[0].notice.name == d.name
    ensures d.Blacklist? ==>
              exists k :: 0 <= k < |r| && r[k].Reply? && r[k].notice == BlacklistNotice(d.name)
    ensures d.Blacklist? ==>
              forall k :: 0 <= k < |r| && r[k].Reply? ==> r[k].notice == BlacklistNotice(d.name)
    ensures forall k :: 0 <= k < |r| && r[k].DirectMessage? ==> r[k].notice == ForbiddenNotice
    ensures Deletes(r) ==> r[0].DeleteMessage? && forall k :: 1 <= k < |r| ==> !r[k].DeleteMessage?
    ensures d.DeleteBlacklisted? ==> |r| == 1
    ensures d.DeleteForbidden? ==> |r| == (if deleted then 2 else 1)
    ensures d.Blacklist? ==> |r| == 2
  {
    match d
    case Ignore => []
    case DeleteBlacklisted =>
      var r := [DeleteMessage(msg.chatId, msg.messageId)];
      assert r[0].DeleteMessage?;
      r
    case DeleteForbidden =>
      var r := [DeleteMessage(msg.chatId, msg.messageId)]
        + (if deleted then [DirectMessage(msg.from.value.id, ForbiddenNotice)] else []);
      assert r[0].DeleteMessage? && (deleted ==> r[1].DirectMessage?);
      r
    case Warn(n, name) =>
      var r := [Reply(msg.chatId, msg.messageId, WarningNotice(name, OrdinalOf(n), n))];
      assert r[0].Reply?;
      r
    case Blacklist(name) =>
      var r := [DeleteMessage(msg.chatId, msg.messageId), Reply(msg.chatId, msg.messageId, BlacklistNotice(name))];
      assert r[0].DeleteMessage? && r[1].Reply?;
      r
  }

  // ----- ordering of the checks -----

  /** A chat outside MONITORED_GROUPS is ignored, whatever else holds. */
  lemma UnmonitoredGroupIgnored(s: State, cfg: Config, msg: Message, lookup: Option<string>)
    requires !GroupMonitored(cfg, msg.chatId)
    ensures Step(s, cfg, msg, lookup) == Reaction(Ignore, s)
  {
  }

  /** With topics configured, a truthy thread id that is not listed is ignored. */
  lemma UnlistedTopicIgnored(s: State, cfg: Config, msg: Message, lookup: Option<string>)
    requires |cfg.topics| > 0 && msg.threadId.Some? && msg.threadId.value != 0
    requires IntToDecimal(msg.threadId.value) !in cfg.topics
    ensures Step(s, cfg, msg, lookup) == Reaction(Ignore, s)
  {
  }

  /** A message without a thread id, or with thread id 0, is handled as if
      no topics were configured at all. */
  lemma NoThreadSkipsTopicFilter(s: State, cfg: Config, msg: Message, lookup: Option<string>)
    requires msg.threadId.None? || msg.threadId.value == 0
    ensures Step(s, cfg, msg, lookup) == Step(s, cfg.(topics := []), msg, lookup)
  {
  }

  /** A thread whose rendering is listed passes the topic filter: the
      message is handled exactly as if no topics were configured. */
  lemma ListedTopicModerated(s: State, cfg: Config, msg: Message, lookup: Option<string>)
    requires msg.threadId.Some? && IntToDecimal(msg.threadId.value) in cfg.topics
    ensures Step(s, cfg, msg, lookup) == Step(s, cfg.(topics := []), msg, lookup)
  {
  }

  /** When the configured strings are renderings of ids, the group filter is
      membership of the chat id among those ids. */
  lemma GroupFilterByIds(cfg: Config, ids: seq<int>, chatId: int)
    requires |cfg.groups| == |ids|
    requires forall k :: 0 <= k < |ids| ==> cfg.groups[k] == IntToDecimal(ids[k])
    ensures GroupMonitored(cfg, chatId) <==> chatId in ids
  {
    RenderedMembership(ids, cfg.groups, chatId);
  }

  /** Administrators and creators are never acted on and change nothing. */
  lemma PrivilegedIgnored(s: State, cfg: Config, msg: Message, lookup: Option<string>)
    requires IsPrivileged(lookup)
    ensures Step(s, cfg, msg, lookup) == Reaction(Ignore, s)
  {
  }

  /** A failed member lookup moderates the sender like any non-privileged
      status would. */
  lemma FailedLookupIsNotPrivileged(s: State, cfg: Config, msg: Message, status: string)
    requires !IsPrivileged(Some(status))
    ensures Step(s, cfg, msg, None) == Step(s, cfg, msg, Some(status))
  {
  }

  /** A moderated message: from a sender, in scope, not privileged. */
  predicate Moderated(cfg: Config, msg: Message, lookup: Option<string>) {
    msg.from.Some? && InScope(cfg, msg) && !IsPrivileged(lookup)
  }

  /** A blacklisted sender's message is deleted whatever its text, and
      nothing changes. */
  lemma BlacklistedSenderDeleted(s: State, cfg: Config, msg: Message, lookup: Option<string>)
    requires Moderated(cfg, msg, lookup) && IsInBlackList(s, msg.from.value.id)
    ensures Step(s, cfg, msg, lookup) == Reaction(DeleteBlacklisted, s)
  {
  }

  /** A forbidden phrase wins over a warning phrase: the message is deleted
      and the count is not raised, even when a warning phrase is present. */
  lemma ForbiddenBeforeWarning(s: State, cfg: Config, msg: Message, lookup: Option<string>)
    requires Moderated(cfg, msg, lookup) && !IsInBlackList(s, msg.from.value.id)
    requires ContainsForbiddenPhrase(MessageText(msg))
    ensures Step(s, cfg, msg, lookup) == Reaction(DeleteForbidden, s)
  {
  }

  /** A warning phrase raises the sender's count by one; below three the
      sender only gets a reply, at three or more they are blacklisted. */
  lemma WarningPhraseCounts(s: State, cfg: Config, msg: Message, lookup: Option<string>)
    requires Moderated(cfg, msg, lookup) && !IsInBlackList(s, msg.from.value.id)
    requires !ContainsForbiddenPhrase(MessageText(msg)) && ContainsWarningPhrase(MessageText(msg))
    ensures var u := msg.from.value;
            var n := GetUserWarnings(s, u.id) + 1;
            var r := Step(s, cfg, msg, lookup);
            && GetUserWarnings(r.next, u.id) == n
            && (n < Threshold ==> r.decision == Warn(n, DisplayName(u)) && r.next.blacklist == s.blacklist)
            && (n >= Threshold ==> r.decision == Blacklist(DisplayName(u)) && IsInBlackList(r.next, u.id))
  {
  }

  /** Text with neither kind of phrase is left alone. */
  lemma CleanTextIgnored(s: State, cfg: Config, msg: Message, lookup: Option<string>)
    requires !ContainsForbiddenPhrase(MessageText(msg)) && !ContainsWarningPhrase(MessageText(msg))
    requires msg.from.None? || !IsInBlackList(s, msg.from.value.id)
    ensures Step(s, cfg, msg, lookup) == Reaction(Ignore, s)
  {
  }

  /** An empty text is falsy, so the caption is scanned instead. */
  lemma EmptyTextFallsBackToCaption(s: State, cfg: Config, msg: Message, lookup: Option<string>)
    ensures Step(s, cfg, msg.(text := Some("")), lookup) == Step(s, cfg, msg.(text := None), lookup)
  {
    var empty, absent := msg.(text := Some("")), msg.(text := None);
    assert MessageText(empty) == MessageText(absent);
    assert empty.from == absent.from && empty.chatId == absent.chatId && empty.threadId == absent.threadId;
  }

  /** The handler keeps the invariant: counts stay in 1..3 and the blacklist
      is exactly the users at 3. */
  lemma StepPreservesValid(s: State, cfg: Config, msg: Message, lookup: Option<string>)
    requires Valid(s)
    ensures Valid(Step(s, cfg, msg, lookup).next)
  {
  }

  /** In a valid state a warning reply counts 1 or 2, so the "third" wording
      of the reply is never used. */
  lemma WarningIsFirstOrSecond(s: State, cfg: Config, msg: Message, lookup: Option<string>)
    requires Valid(s)
    ensures var d := Step(s, cfg, msg, lookup).decision;
            d.Warn? ==> (d.count == 1 || d.count == 2) && OrdinalOf(d.count) != Third
  {
  }
}

=== FILE: phrases.dfy ===
/** The two fixed phrase tables of bot.js and the two checks built on them. */
module Phrases {
  import opened Text

  /** Phrases whose presence gets a message deleted (bot.js lines 24-43). */
  const ForbiddenPhrases: seq<string> := [
    "го в лс",
    "в лс",
    "файлик лс",
    "файлик в лс",
    "файлик в личку",
    "в личке",
    "пиши в лс",
    "напиши в лс",
    "в личные сообщения",
    "скинь в личку",
    "в личку",
    "кину в личку",
    "пишите в личку",
    "вышлю в лс",
    "скинь лс",
    "пиши лс",
    "напиши лс",
    "скинь в лс"
  ]

  /** Phrases whose presence earns a warning (bot.js lines 46-63), including
      the four entries spelled with capitals. */
  const WarningPhrases: seq<string> := [
    "есть машинка",
    "скинь машинку",
    "скину машинку",
    "машинка",
    "го машинку",
    "лс машинка",
    "машинка лс",
    "лс машинку",
    "машнка",
    "личка",
    "Личка",
    "файл",
    "Файл",
    "бот дурак",
    "Бот дурак",
    "Бот Дурак"
  ]

  /** `containsForbiddenPhrase`: some forbidden phrase occurs in the
      lower-cased text. */
  function ContainsForbiddenPhrase(text: string): (r: bool)
    ensures r <==> exists k :: 0 <= k < |ForbiddenPhrases| && IsSubstring(ForbiddenPhrases[k], Lower(text))
  {
    MatchesAny(Lower(text), ForbiddenPhrases)
  }

  /** `containsWarningPhrase`: some warning phrase occurs in the lower-cased
      text. */
  function ContainsWarningPhrase(text: string): (r: bool)
    ensures r <==> exists k :: 0 <= k < |WarningPhrases| && IsSubstring(WarningPhrases[k], Lower(text))
  {
    MatchesAny(Lower(text), WarningPhrases)
  }

  /** Matching ignores case: every casing of a (lower-case) forbidden phrase,
      anywhere in a longer text, is caught. */
  lemma ForbiddenIgnoresCase(before: string, variant: string, after: string, k: nat)
    requires k < |ForbiddenPhrases| && Lower(variant) == ForbiddenPhrases[k]
    ensures ContainsForbiddenPhrase(before + variant + after)
  {
    LowerFindsVariant(before, variant, after, ForbiddenPhrases[k]);
  }

  /** The same for warning phrases. */
  lemma WarningIgnoresCase(before: string, variant: string, after: string, k: nat)
    requires k < |WarningPhrases| && Lower(variant) == WarningPhrases[k]
    ensures ContainsWarningPhrase(before + variant + after)
  {
    LowerFindsVariant(before, variant, after, WarningPhrases[k]);
  }

  /** The entries of the warning table that are spelled with a capital letter. */
  predicate CapitalisedEntry(k: nat) {
    k == 10 || k == 12 || k == 14 || k == 15
  }

  /** "Личка", "Файл", "Бот дурак" and "Бот Дурак" are compared against
      lower-cased text, so they never match anything. */
  lemma CapitalisedEntriesNeverMatch(text: string, k: nat)
    requires CapitalisedEntry(k)
    ensures k < |WarningPhrases|
    ensures !Contains(Lower(text), WarningPhrases[k])
  {
    assert IsUpper(WarningPhrases[k][0]);
    UpperNeverMatches(WarningPhrases[k], text, 0);
  }

  /** The warning table without its capitalised entries. */
  const LiveWarningPhrases: seq<string> := [
    "есть машинка",
    "скинь машинку",
    "скину машинку",
    "машинка",
    "го машинку",
    "лс машинка",
    "машинка лс",
    "лс машинку",
    "машнка",
    "личка",
    "файл",
    "бот дурак"
  ]

  /** Dropping the capitalised entries changes no verdict of the warning check. */
  lemma WarningTableWithoutCapitals(text: string)
    ensures ContainsWarningPhrase(text) <==> MatchesAny(Lower(text), LiveWarningPhrases)
  {
    var t := Lower(text);
    assert forall k :: 0 <= k < |LiveWarningPhrases| ==> LiveWarningPhrases[k] in WarningPhrases;
    if ContainsWarningPhrase(text) {
      var k :| 0 <= k < |WarningPhrases| && IsSubstring(WarningPhrases[k], t);
      if CapitalisedEntry(k) {
        CapitalisedEntriesNeverMatch(text, k);
      } else {
        var m := if k < 10 then k else if k == 11 then 10 else 11;
        assert LiveWarningPhrases[m] == WarningPhrases[k];
      }
    }
  }

  /** The forbidden phrases no other forbidden phrase is part of. */
  const CoreForbiddenPhrases: seq<string> := [
    "в лс",
    "файлик лс",
    "в личке",
    "в личные сообщения",
    "в личку",
    "скинь лс",
    "пиши лс"
  ]

  /** For each forbidden phrase, the core phrase inside it and where it starts. */
  const ForbiddenCover: seq<(nat, nat)> := [
    (0, 3), (0, 0), (1, 0), (0, 7), (4, 7), (2, 0), (0, 5), (0, 7), (3, 0),
    (4, 6), (4, 0), (4, 5), (4, 7), (0, 6), (5, 0), (6, 0), (6, 2), (0, 6)
  ]

  lemma ForbiddenCoverIsCorrect()
    ensures Covers(ForbiddenPhrases, CoreForbiddenPhrases, ForbiddenCover)
  {
    var f, c := ForbiddenPhrases, CoreForbiddenPhrases;
    assert OccursAt(c[0], f[0], 3);
    assert OccursAt(c[0], f[1], 0);
    assert OccursAt(c[1], f[2], 0);
    assert OccursAt(c[0], f[3], 7);
    assert OccursAt(c[4], f[4], 7);
    assert OccursAt(c[2], f[5], 0);
    assert OccursAt(c[0], f[6], 5);
    assert OccursAt(c[0], f[7], 7);
    assert OccursAt(c[3], f[8], 0);
    assert OccursAt(c[4], f[9], 6);
    assert OccursAt(c[4], f[10], 0);
    assert OccursAt(c[4], f[11], 5);
    assert OccursAt(c[4], f[12], 7);
    assert OccursAt(c[0], f[13], 6);
    assert OccursAt(c[5], f[14], 0);
    assert OccursAt(c[6], f[15], 0);
    assert OccursAt(c[6], f[16], 2);
    assert OccursAt(c[0], f[17], 6);
  }

  /** Eleven of the eighteen forbidden phrases contain a shorter one, so the
      seven core phrases give the same verdict on every text. */
  lemma ForbiddenTableReducesToCore(text: string)
    ensures ContainsForbiddenPhrase(text) <==> MatchesAny(Lower(text), CoreForbiddenPhrases)
  {
    var f, c := ForbiddenPhrases, CoreForbiddenPhrases;
    assert c[0] == f[1] && c[1] == f[2] && c[2] == f[5] && c[3] == f[8];
    assert c[4] == f[10] && c[5] == f[14] && c[6] == f[15];
    ForbiddenCoverIsCorrect();
    TableReduction(Lower(text), f, c, ForbiddenCover);
  }

  /** A lower-case text that starts with a warning phrase is warnable. */
  lemma WarnableByEntry(text: string, k: nat)
    requires k < |WarningPhrases| && Lower(text) == text
    requires OccursAt(WarningPhrases[k], text, 0)
    ensures ContainsWarningPhrase(text)
  {
  }

  /** Every forbidden phrase holds the letter "л", so a text without "л" or
      "Л" is never deleted for a forbidden phrase. */
  lemma WithoutLNeverForbidden(text: string)
    requires 'л' !in Lower(text)
    ensures !ContainsForbiddenPhrase(text)
  {
    forall k | 0 <= k < |ForbiddenPhrases|
      ensures !IsSubstring(ForbiddenPhrases[k], Lower(text))
    {
      assert 'л' in ForbiddenPhrases[k];
      MissingCharBlocksMatch(ForbiddenPhrases[k], Lower(text), 'л');
    }
  }
}

=== FILE: scenarios.dfy ===
/** Sequences of handler runs: the three-strike escalation, a reset by
    /unban, and the invariant over any stream of messages and commands. */
module Scenarios {
  import opened Wrappers
  import opened Text
  import opened Phrases
  import opened Decimal
  import opened ModerationState
  import opened Engine
  import opened Commands

  /** A message that gets a warning phrase counted: moderated, not
      forbidden, warnable. */
  predicate WarnableFrom(cfg: Config, msg: Message, lookup: Option<string>, u: int) {
    && Moderated(cfg, msg, lookup)
    && SentBy(msg, u)
    && !ContainsForbiddenPhrase(MessageText(msg))
    && ContainsWarningPhrase(MessageText(msg))
  }

  /** Three warnable messages in a row from a user without warnings draw a
      first warning, a second warning and then the blacklist; after that the
      user has 3 warnings and every further message of theirs is deleted. */
  lemma ThreeStrikes(s: State, cfg: Config, lookup: Option<string>, u: int,
                     m1: Message, m2: Message, m3: Message, m4: Message)
    requires Valid(s) && GetUserWarnings(s, u) == 0
    requires WarnableFrom(cfg, m1, lookup, u)
    requires WarnableFrom(cfg, m2, lookup, u)
    requires WarnableFrom(cfg, m3, lookup, u)
    requires Moderated(cfg, m4, lookup) && SentBy(m4, u)
    ensures var r1 := Step(s, cfg, m1, lookup);
            var r2 := Step(r1.next, cfg, m2, lookup);
            var r3 := Step(r2.next, cfg, m3, lookup);
            var r4 := Step(r3.next, cfg, m4, lookup);
            && r1.decision == Warn(1, DisplayName(m1.from.value))
            && r2.decision == Warn(2, DisplayName(m2.from.value))
            && r3.decision == Blacklist(DisplayName(m3.from.value))
            && GetUserWarnings(r3.next, u) == Threshold && IsInBlackList(r3.next, u)
            && r4 == Reaction(DeleteBlacklisted, r3.next)
            && (forall v :: v != u ==>
                  (GetUserWarnings(r3.next, v) == GetUserWarnings(s, v)
                   && (IsInBlackList(r3.next, v) <==> IsInBlackList(s, v))))
  {
    var r1 := Strike(s, cfg, lookup, u, m1);
    var r2 := Strike(r1.next, cfg, lookup, u, m2);
    var r3 := Strike(r2.next, cfg, lookup, u, m3);
    BlacklistedSenderDeleted(r3.next, cfg, m4, lookup);
  }

  /** One warnable message from a user below the threshold: the count goes
      up by one, the invariant holds, and no other user is touched. */
  lemma Strike(s: State, cfg: Config, lookup: Option<string>, u: int, m: Message)
    returns (r: Reaction)
    requires Valid(s) && GetUserWarnings(s, u) < Threshold
    requires WarnableFrom(cfg, m, lookup, u)
    ensures r == Step(s, cfg, m, lookup) && Valid(r.next)
    ensures GetUserWarnings(r.next, u) == GetUserWarnings(s, u) + 1
    ensures GetUserWarnings(r.next, u) < Threshold ==> r.decision == Warn(GetUserWarnings(r.next, u), DisplayName(m.from.value))
    ensures GetUserWarnings(r.next, u) == Threshold ==> r.decision == Blacklist(DisplayName(m.from.value)) && IsInBlackList(r.next, u)
    ensures forall v :: v != u ==>
              (GetUserWarnings(r.next, v) == GetUserWarnings(s, v)
               && (IsInBlackList(r.next, v) <==> IsInBlackList(s, v)))
  {
    BlacklistedIffThree(s, u);
    r := Step(s, cfg, m, lookup);
    WarningPhraseCounts(s, cfg, m, lookup);
    StepPreservesValid(s, cfg, m, lookup);
  }

  /** After /unban the user starts over: their next warnable message is a
      first warning again. */
  lemma UnbanStartsAfresh(s: State, cfg: Config, admin: Option<string>, lookup: Option<string>,
                          u: int, msg: Message)
    requires Valid(s) && IsPrivileged(admin)
    requires WarnableFrom(cfg, msg, lookup, u)
    ensures var t := UnbanCommand(s, admin, Some(u)).next;
            && WarningsCommand(t, admin, Some(u)) == Some(0)
            && BlacklistCommand(t, admin).Some?
            && (BlacklistCommand(t, admin).value.Listing? ==> u !in BlacklistCommand(t, admin).value.ids)
            && Step(t, cfg, msg, lookup).decision == Warn(1, DisplayName(msg.from.value))
  {
  }

  // ----- the example run: one group, one user, "го машинку" three times -----

  const Group: int := -1001234567890
  const Spammer: int := 42

  const ExampleConfig: Config := Config([IntToDecimal(Group)], [])

  function ExampleMessage(id: int, text: string): Message {
    Message(Group, None, id, Some(User(Spammer, None, "Misha")), Some(text), None)
  }

  const Offending: string := "го машинку"

  /** "го машинку" is a warning phrase and no forbidden phrase. */
  lemma OffendingTextIsWarnable(text: string)
    requires text == Offending
    ensures ContainsWarningPhrase(text) && !ContainsForbiddenPhrase(text)
  {
    OffendingIsLowerCase(text);
    WithoutLNeverForbidden(text);
    WarnableByEntry(text, 4);
  }

  lemma OffendingIsLowerCase(text: string)
    requires text == Offending
    ensures Lower(text) == text && 'л' !in text
    ensures OccursAt(WarningPhrases[4], text, 0)
  {
  }

  /** The run, for "го машинку" or any other text with a warning phrase and
      no forbidden phrase: warning 1, warning 2, blacklist, and then a fourth
      message, whatever it says, is deleted. */
  lemma ExampleRun(text: string, later: string)
    requires ContainsWarningPhrase(text) && !ContainsForbiddenPhrase(text)
    ensures var m := ExampleMessage(1, text);
            var r1 := Step(Initial, ExampleConfig, m, None);
            var r2 := Step(r1.next, ExampleConfig, m.(messageId := 2), None);
            var r3 := Step(r2.next, ExampleConfig, m.(messageId := 3), None);
            var r4 := Step(r3.next, ExampleConfig, ExampleMessage(4, later), None);
            && r1.decision == Warn(1, "Misha")
            && r2.decision == Warn(2, "Misha")
            && r3.decision == Blacklist("Misha")
            && r4.decision == DeleteBlacklisted
            && WarningsCommand(r3.next, Some("creator"), Some(Spammer)) == Some(3)
  {
    InitialValid();
    var m := ExampleMessage(1, text);
    assert InScope(ExampleConfig, m);
    ThreeStrikes(Initial, ExampleConfig, None, Spammer,
                 m, m.(messageId := 2), m.(messageId := 3), ExampleMessage(4, later));
  }

  // ----- any stream of messages and commands -----

  /** The events that touch the state: a message, or an /unban command. */
  datatype Event =
    | Incoming(msg: Message, lookup: Option<string>)
    | UnbanRequest(lookup: Option<string>, arg: Option<int>)

  /** The user an event can affect: the sender of a message, the argument
      of an /unban. */
  predicate Concerns(e: Event, v: int) {
    match e
    case Incoming(msg, _) => SentBy(msg, v)
    case UnbanRequest(_, arg) => arg == Some(v)
  }

  /** One event: every user it does not concern keeps count and blacklist
      membership, and the invariant is kept. */
  function Apply(s: State, cfg: Config, e: Event): (r: State)
    ensures forall v :: !Concerns(e, v) ==>
              GetUserWarnings(r, v) == GetUserWarnings(s, v)
              && (IsInBlackList(r, v) <==> IsInBlackList(s, v))
    ensures Valid(s) ==> Valid(r)
  {
    match e
    case Incoming(msg, lookup) => Step(s, cfg, msg, lookup).next
    case UnbanRequest(lookup, arg) => UnbanCommand(s, lookup, arg).next
  }

  /** The events handled one at a time, in arrival order. */
  function Run(s: State, cfg: Config, events: seq<Event>): (r: State)
    ensures forall v :: (forall k :: 0 <= k < |events| ==> !Concerns(events[k], v)) ==>
              GetUserWarnings(r, v) == GetUserWarnings(s, v)
              && (IsInBlackList(r, v) <==> IsInBlackList(s, v))
    decreases |events|
  {
    if |events| == 0 then s else Run(Apply(s, cfg, events[0]), cfg, events[1..])
  }

  /** Whatever arrives, counts stay within 1..3, the blacklist holds no
      duplicates, and it holds exactly the users at 3. */
  lemma {:induction false} RunPreservesValid(s: State, cfg: Config, events: seq<Event>)
    requires Valid(s)
    ensures Valid(Run(s, cfg, events))
    decreases |events|
  {
    if |events| > 0 {
      if events[0].Incoming? {
        StepPreservesValid(s, cfg, events[0].msg, events[0].lookup);
      }
      RunPreservesValid(Apply(s, cfg, events[0]), cfg, events[1..]);
    }
  }

  /** From process start, no user ever holds more than three warnings. */
  lemma CountNeverExceedsThree(cfg: Config, events: seq<Event>, u: int)
    ensures GetUserWarnings(Run(Initial, cfg, events), u) <= Threshold
  {
    InitialValid();
    RunPreservesValid(Initial, cfg, events);
    BlacklistedIffThree(Run(Initial, cfg, events), u);
  }
}

=== FILE: state.dfy ===
/** The bot's in-memory state: the `userWarnings` map (user id to number of
    warnings) and the `blackList` set, with the three helpers that touch them
    and the reset performed by /unban. */
module ModerationState {

  /** Number of warnings at which a user is blacklisted. */
  const Threshold: nat := 3

  predicate NoDuplicates(xs: seq<int>) {
    forall i, j :: 0 <= i < j < |xs| ==> xs[i] != xs[j]
  }

  /** `blackList` is a JavaScript Set, which enumerates in insertion order;
      it is kept here as a duplicate-free sequence in that order. */
  datatype State = State(warnings: map<int, nat>, blacklist: seq<int>)

  /** The state at process start: nothing is persisted across restarts. */
  const Initial: State := State(map[], [])

  /** `getUserWarnings`: the stored count, 0 for an unknown id. */
  function GetUserWarnings(s: State, u: int): (n: nat)
    ensures u !in s.warnings ==> n == 0
    ensures u in s.warnings ==> n == s.warnings[u]
  {
    if u in s.warnings then s.warnings[u] else 0
  }

  /** The blacklist seen as the JavaScript Set it stands for. */
  function Members(s: State): set<int> {
    set x | x in s.blacklist
  }

  /** `isInBlackList`: `Set.has`. */
  function IsInBlackList(s: State, u: int): (b: bool)
    ensures b <==> u in Members(s)
  {
    u in s.blacklist
  }

  /** The result of `addWarning`: the new count and the new state. */
  datatype Counted = Counted(count: nat, next: State)

  /** `addWarning`: the user's count goes up by one (to 1 when unknown);
      nobody else's count and not the blacklist changes. */
  function AddWarning(s: State, u: int): (r: Counted)
    ensures r.count == GetUserWarnings(s, u) + 1
    ensures GetUserWarnings(r.next, u) == r.count
    ensures forall v :: v != u ==> GetUserWarnings(r.next, v) == GetUserWarnings(s, v)
    ensures r.next.warnings.Keys == s.warnings.Keys + {u}
    ensures r.next.blacklist == s.blacklist
  {
    var n := GetUserWarnings(s, u) + 1;
    Counted(n, s.(warnings := s.warnings[u := n]))
  }

  /** `addToBlackList`: `Set.add`, which appends an id not yet present and
      leaves the set alone otherwise. */
  function AddToBlackList(s: State, u: int): (r: State)
    ensures IsInBlackList(r, u)
    ensures forall v :: IsInBlackList(r, v) <==> IsInBlackList(s, v) || v == u
    ensures |r.blacklist| >= |s.blacklist| && r.blacklist[..|s.blacklist|] == s.blacklist
    ensures NoDuplicates(s.blacklist) ==> NoDuplicates(r.blacklist)
    ensures r.warnings == s.warnings
  {
    if u in s.blacklist then s else s.(blacklist := s.blacklist + [u])
  }

  /** `a` is `b` with some elements left out, the rest in their order. */
  ghost predicate Subsequence(a: seq<int>, b: seq<int>)
    decreases |b|
  {
    |a| == 0
    || (|b| > 0 && ((a[0] == b[0] && Subsequence(a[1..], b[1..])) || Subsequence(a, b[1..])))
  }

  /** `Set.delete`: removes every occurrence of x, keeping the order of the
      rest; deleting an absent id changes nothing. */
  function Remove(xs: seq<int>, x: int): (r: seq<int>)
    ensures x !in r
    ensures Subsequence(r, xs)
    ensures forall y :: y != x ==> (y in r <==> y in xs)
    ensures x !in xs ==> r == xs
    ensures NoDuplicates(xs) ==> NoDuplicates(r)
    ensures |r| <= |xs|
  {
    if |xs| == 0 then []
    else if xs[0] == x then Remove(xs[1..], x)
    else
      var rest := Remove(xs[1..], x);
      assert NoDuplicates(xs) ==> xs[0] !in xs[1..] && NoDuplicates(xs[1..]);
      [xs[0]] + rest
  }

  /** The state effect of /unban: the id leaves both the blacklist and the
      warning map; every other user is untouched. */
  function Reset(s: State, u: int): (r: State)
    ensures GetUserWarnings(r, u) == 0 && u !in r.warnings
    ensures !IsInBlackList(r, u)
    ensures forall v :: v != u ==> GetUserWarnings(r, v) == GetUserWarnings(s, v)
    ensures forall v :: v != u ==> (IsInBlackList(r, v) <==> IsInBlackList(s, v))
    ensures r.warnings.Keys == s.warnings.Keys - {u}
    ensures NoDuplicates(s.blacklist) ==> NoDuplicates(r.blacklist)
  {
    State(s.warnings - {u}, Remove(s.blacklist, u))
  }

  /** Resetting twice is resetting once. */
  lemma ResetIdempotent(s: State, u: int)
    ensures Reset(Reset(s, u), u) == Reset(s, u)
  {
  }

  /** The invariant the bot keeps: every stored count is between 1 and 3,
      the blacklist has no duplicates, and a user is blacklisted exactly when
      their count is 3. */
  ghost predicate Valid(s: State) {
    && NoDuplicates(s.blacklist)
    && (forall u :: u in s.warnings ==> 1 <= s.warnings[u] <= Threshold)
    && (forall u :: u in s.blacklist <==> u in s.warnings && s.warnings[u] == Threshold)
  }

  lemma InitialValid()
    ensures Valid(Initial)
  {
  }

  /** Under the invariant, blacklist membership is the same thing as having
      three warnings. */
  lemma BlacklistedIffThree(s: State, u: int)
    requires Valid(s)
    ensures IsInBlackList(s, u) <==> GetUserWarnings(s, u) == Threshold
    ensures GetUserWarnings(s, u) <= Threshold
  {
  }

  lemma ResetPreservesValid(s: State, u: int)
    requires Valid(s)
    ensures Valid(Reset(s, u))
  {
  }

  /** A duplicate-free sequence has as many elements as its set of members. */
  lemma {:induction false} DistinctCount(xs: seq<int>)
    requires NoDuplicates(xs)
    ensures |set x | x in xs| == |xs|
  {
    if |xs| > 0 {
      var tail := xs[1..];
      assert NoDuplicates(tail);
      DistinctCount(tail);
      assert xs[0] !in tail;
      assert (set x | x in xs) == (set x | x in tail) + {xs[0]};
    }
  }

  /** Under the invariant every blacklisted user has a warning entry, so the
      blacklist is never longer than the warning map. */
  lemma BlacklistNoLargerThanWarnings(s: State)
    ensures Valid(s) ==> |s.blacklist| <= |s.warnings|
  {
    if Valid(s) {
      DistinctCount(s.blacklist);
      var members := set x | x in s.blacklist;
      SubsetNoLarger(members, s.warnings.Keys);
    }
  }

  lemma SubsetNoLarger(a: set<int>, b: set<int>)
    requires a <= b
    ensures |a| <= |b|
  {
    assert b == a + (b - a);
    assert a * (b - a) == {};
  }
}

=== FILE: stats.dfy ===
/** The aggregates reported by the /health and /stats HTTP routes. */
module Stats {
  import opened Wrappers
  import opened ModerationState
  import opened Engine

  /** A non-empty map has a key. */
  lemma HasKey(m: map<int, nat>)
    requires |m| > 0
    ensures exists k :: k in m
  {
    if !exists k :: k in m.Keys {
      assert false;
    }
  }

  /** Some key of a non-empty map (the choice is fixed per map). */
  ghost function PickKey(m: map<int, nat>): (k: int)
    requires |m| > 0
    ensures k in m
  {
    HasKey(m);
    var k :| k in m; k
  }

  /** The sum of all counts in the map, in no particular order. */
  ghost function SumValues(m: map<int, nat>): nat
    decreases |m|
  {
    if |m| == 0 then 0
    else
      var k := PickKey(m);
      m[k] + SumValues(m - {k})
  }

  /** The sum can be split at any key, whichever key `PickKey` chose. */
  lemma {:induction false} SumRemove(m: map<int, nat>, k: int)
    requires k in m
    ensures SumValues(m) == m[k] + SumValues(m - {k})
    decreases |m|
  {
    var j := PickKey(m);
    if j != k {
      assert |m - {j}| < |m|;
      SumRemove(m - {j}, k);
      SumRemove(m - {k}, j);
      assert m - {j} - {k} == m - {k} - {j};
    }
  }

  /** `Array.from(userWarnings.values()).reduce((sum, count) => sum + count, 0)`. */
  method TotalWarnings(m: map<int, nat>) returns (total: nat)
    ensures total == SumValues(m)
  {
    total := 0;
    var rest := m;
    while |rest| > 0
      invariant total + SumValues(rest) == SumValues(m)
      decreases |rest|
    {
      var k := PickAny(rest);
      SumRemove(rest, k);
      total := total + rest[k];
      rest := rest - {k};
    }
  }

  /** Some key of a non-empty map, chosen by the program. */
  method PickAny(m: map<int, nat>) returns (k: int)
    requires |m| > 0
    ensures k in m
  {
    HasKey(m);
    k :| k in m;
  }

  /** With every count between 1 and 3, the sum lies between the number of
      users and three times that. */
  lemma {:induction false} SumBounds(m: map<int, nat>)
    requires forall u :: u in m ==> 1 <= m[u] <= Threshold
    ensures |m| <= SumValues(m) <= Threshold * |m|
    decreases |m|
  {
    if |m| > 0 {
      var k := PickKey(m);
      SumBounds(m - {k});
    }
  }

  /** Raising one user's count by one raises the sum by one. */
  lemma SumAddWarning(s: State, u: int)
    ensures SumValues(AddWarning(s, u).next.warnings) == SumValues(s.warnings) + 1
  {
    var m, m' := s.warnings, AddWarning(s, u).next.warnings;
    SumRemove(m', u);
    if u in m {
      SumRemove(m, u);
      assert m' - {u} == m - {u};
    } else {
      assert m' - {u} == m;
    }
  }

  /** Each warning or blacklisting adds one to the total; every other
      decision leaves it alone. */
  lemma StepTotal(s: State, cfg: Config, msg: Message, lookup: Option<string>)
    ensures var r := Step(s, cfg, msg, lookup);
            SumValues(r.next.warnings)
              == SumValues(s.warnings) + (if r.decision.Warn? || r.decision.Blacklist? then 1 else 0)
  {
    var r := Step(s, cfg, msg, lookup);
    if r.decision.Warn? || r.decision.Blacklist? {
      SumAddWarning(s, msg.from.value.id);
    }
  }

  /** Resetting a user takes their count out of the total: the figure the
      route calls "total warnings issued" is the sum of current counts. */
  lemma ResetTotal(s: State, u: int)
    ensures SumValues(Reset(s, u).warnings) == SumValues(s.warnings) - GetUserWarnings(s, u)
  {
    if u in s.warnings {
      SumRemove(s.warnings, u);
    } else {
      assert Reset(s, u).warnings == s.warnings;
    }
  }

  /** The /health body, less its constant fields. */
  datatype HealthReport = HealthReport(warningsCount: nat, blacklistCount: nat)

  function Health(s: State): (r: HealthReport)
    ensures r.warningsCount == |s.warnings| && r.blacklistCount == |s.blacklist|
    ensures NoDuplicates(s.blacklist) ==> r.blacklistCount == |set x | x in s.blacklist|
    ensures Valid(s) ==> r.blacklistCount <= r.warningsCount
    ensures r.warningsCount == 0 ==> s.warnings == map[]
  {
    BlacklistNoLargerThanWarnings(s);
    assert NoDuplicates(s.blacklist) ==> |s.blacklist| == |set x | x in s.blacklist| by {
      if NoDuplicates(s.blacklist) { DistinctCount(s.blacklist); }
    }
    HealthReport(|s.warnings|, |s.blacklist|)
  }

  /** The /stats body. */
  datatype StatsReport = StatsReport(
    totalWarningsIssued: nat,
    usersWithWarnings: nat,
    blacklistedUsers: nat,
    monitoredGroups: nat,
    monitoredTopics: nat)

  method GetStats(s: State, cfg: Config) returns (r: StatsReport)
    ensures r.totalWarningsIssued == SumValues(s.warnings)
    ensures r.usersWithWarnings == |s.warnings| && r.blacklistedUsers == |s.blacklist|
    ensures r.monitoredGroups == |cfg.groups| && r.monitoredTopics == |cfg.topics|
    ensures Valid(s) ==>
              && r.usersWithWarnings <= r.totalWarningsIssued <= Threshold * r.usersWithWarnings
              && r.blacklistedUsers <= r.usersWithWarnings
  {
    var total := TotalWarnings(s.warnings);
    if Valid(s) {
      SumBounds(s.warnings);
    }
    BlacklistNoLargerThanWarnings(s);
    r := StatsReport(total, |s.warnings|, |s.blacklist|, |cfg.groups|, |cfg.topics|);
  }
}

=== FILE: text.dfy ===
/** Lower-casing and substring search, as the bot uses them to scan a
    message: `text.toLowerCase()` followed by `String.prototype.includes`. */
module Text {

  /** Upper-case letters the model's lower-casing knows about: ASCII A-Z and
      the Cyrillic capitals U+0400..U+042F (Ѐ..Џ and А..Я, which include Ё). */
  predicate IsUpper(c: char) {
    ('A' <= c <= 'Z') || (0x0400 <= c as int <= 0x042F)
  }

  predicate NoUpper(s: string) {
    forall i :: 0 <= i < |s| ==> !IsUpper(s[i])
  }

  /** The small letters that the capitals above lower-case to: a-z and
      U+0430..U+045F (а..я and ѐ..џ). */
  predicate IsSmall(c: char) {
    ('a' <= c <= 'z') || (0x0430 <= c as int <= 0x045F)
  }

  /** `toUpperCase` on those small letters, written from the small side:
      a-z and а..я move down by 0x20, ѐ..џ down by 0x50. */
  function UpperChar(c: char): char
    requires IsSmall(c)
  {
    if 'a' <= c <= 'z' then (c as int - 0x20) as char
    else if c as int <= 0x044F then (c as int - 0x20) as char
    else (c as int - 0x50) as char
  }

  /** One character of `toLowerCase`: A-Z to a-z, Ѐ..Џ to ѐ..џ (+0x50),
      А..Я to а..я (+0x20); everything else unchanged. */
  function LowerChar(c: char): (d: char)
    ensures !IsUpper(d)
    ensures !IsUpper(c) ==> d == c
    ensures IsUpper(c) ==> d != c
    ensures IsUpper(c) ==> IsSmall(d) && UpperChar(d) == c
  {
    if 'A' <= c <= 'Z' then (c as int + 0x20) as char
    else if 0x0400 <= c as int <= 0x040F then (c as int + 0x50) as char
    else if 0x0410 <= c as int <= 0x042F then (c as int + 0x20) as char
    else c
  }

  /** `toLowerCase` on a whole string, one character at a time. */
  function Lower(s: string): (r: string)
    ensures |r| == |s|
    ensures NoUpper(r)
    ensures forall i :: 0 <= i < |s| && !IsUpper(s[i]) ==> r[i] == s[i]
  {
    seq(|s|, i requires 0 <= i < |s| => LowerChar(s[i]))
  }

  /** Capitals and small letters pair up one to one: every small letter is
      the lower-casing of its capital, and that capital is a capital. */
  lemma LowerInvertsUpper(c: char)
    requires IsSmall(c)
    ensures IsUpper(UpperChar(c)) && LowerChar(UpperChar(c)) == c
  {
  }

  lemma LowerIdempotent(s: string)
    ensures Lower(Lower(s)) == Lower(s)
  {
  }

  /** Lower-casing works character by character, so it distributes over
      concatenation. */
  lemma LowerConcat(a: string, b: string)
    ensures Lower(a + b) == Lower(a) + Lower(b)
  {
  }

  /** `p` occurs in `s` at position i. */
  predicate OccursAt(p: string, s: string, i: nat) {
    i + |p| <= |s| && s[i..i + |p|] == p
  }

  /** The meaning of `s.includes(p)`: some position of `s` starts a copy of `p`. */
  ghost predicate IsSubstring(p: string, s: string) {
    exists i: nat :: OccursAt(p, s, i)
  }

  /** `s.includes(p)`: tries every start position from left to right. */
  function Contains(s: string, p: string): (r: bool)
    ensures r <==> IsSubstring(p, s)
    decreases |s|
  {
    if OccursAt(p, s, 0) then
      true
    else if |s| == 0 then
      false
    else
      SubstringOfTail(p, s);
      Contains(s[1..], p)
  }

  /** When `p` does not start `s`, it occurs in `s` exactly when it occurs in
      the tail of `s`. */
  lemma SubstringOfTail(p: string, s: string)
    requires |s| > 0 && !OccursAt(p, s, 0)
    ensures IsSubstring(p, s) <==> IsSubstring(p, s[1..])
  {
    if IsSubstring(p, s) {
      var i: nat :| OccursAt(p, s, i);
      assert i != 0;
      assert s[1..][i - 1..i - 1 + |p|] == s[i..i + |p|];
      assert OccursAt(p, s[1..], i - 1);
    }
    if IsSubstring(p, s[1..]) {
      var i: nat :| OccursAt(p, s[1..], i);
      assert s[1..][i..i + |p|] == s[i + 1..i + 1 + |p|];
      assert OccursAt(p, s, i + 1);
    }
  }

  /** `table.some(phrase => s.includes(phrase))`. */
  function MatchesAny(s: string, table: seq<string>): (r: bool)
    ensures r <==> exists k :: 0 <= k < |table| && IsSubstring(table[k], s)
  {
    if |table| == 0 then
      false
    else
      var rest := MatchesAny(s, table[1..]);
      assert forall k :: 1 <= k < |table| ==> table[1..][k - 1] == table[k];
      Contains(s, table[0]) || rest
  }

  /** Occurrence is transitive: a phrase inside a phrase inside a text is
      inside the text. */
  lemma SubstringTransitive(a: string, b: string, c: string)
    requires IsSubstring(a, b) && IsSubstring(b, c)
    ensures IsSubstring(a, c)
  {
    var i: nat :| OccursAt(a, b, i);
    var j: nat :| OccursAt(b, c, j);
    forall t | 0 <= t < |a|
      ensures c[j + i..j + i + |a|][t] == a[t]
    {
      assert c[j + i..j + i + |a|][t] == c[j..j + |b|][i + t] == b[i + t];
      assert b[i..i + |a|][t] == b[i + t];
    }
    assert OccursAt(a, c, j + i);
  }

  /** Each entry of `table` contains an entry of `core`: `cover[k]` names
      which one and where it starts. */
  predicate Covers(table: seq<string>, core: seq<string>, cover: seq<(nat, nat)>) {
    && |cover| == |table|
    && forall k :: 0 <= k < |table| ==>
         cover[k].0 < |core| && OccursAt(core[cover[k].0], table[k], cover[k].1)
  }

  /** A table can be replaced by a sub-table when each entry it drops
      contains some entry it keeps: both match exactly the same texts. */
  lemma TableReduction(s: string, table: seq<string>, core: seq<string>, cover: seq<(nat, nat)>)
    requires forall m :: 0 <= m < |core| ==> core[m] in table
    requires Covers(table, core, cover)
    ensures MatchesAny(s, table) <==> MatchesAny(s, core)
  {
    if MatchesAny(s, table) {
      var k :| 0 <= k < |table| && IsSubstring(table[k], s);
      var m := cover[k].0;
      assert OccursAt(core[m], table[k], cover[k].1);
      SubstringTransitive(core[m], table[k], s);
    }
    if MatchesAny(s, core) {
      var m :| 0 <= m < |core| && IsSubstring(core[m], s);
      var k :| 0 <= k < |table| && table[k] == core[m];
    }
  }

  /** A phrase holding a character that the text lacks cannot occur in it. */
  lemma MissingCharBlocksMatch(p: string, s: string, c: char)
    requires c in p && c !in s
    ensures !IsSubstring(p, s)
  {
  }

  /** A phrase holding an upper-case character never occurs in lower-cased
      text. */
  lemma UpperNeverMatches(p: string, s: string, j: nat)
    requires j < |p| && IsUpper(p[j])
    ensures !Contains(Lower(s), p)
  {
  }

  /** Any variant `v` whose lower-casing is `p`, wrapped in arbitrary text,
      contains `p` once lower-cased. */
  lemma LowerFindsVariant(a: string, v: string, b: string, p: string)
    requires Lower(v) == p
    ensures Contains(Lower(a + v + b), p)
  {
    LowerConcat(a + v, b);
    LowerConcat(a, v);
    var t := Lower(a + v + b);
    assert t == Lower(a) + p + Lower(b);
    assert t[|a|..|a| + |p|] == p;
    assert OccursAt(p, t, |a|);
  }
}

=== FILE: wrappers.dfy ===
/** Optional values: an absent Telegram field, a failed member lookup, a
    command argument that `parseInt` could not read. */
module Wrappers {

  datatype Option<+T> = None | Some(value: T)
}
